=== FILE: README.md ===
# Compute Engine start/stop/create/delete handler — Dafny model

This project models the decision logic of a Pub/Sub-triggered cloud function
that manages Compute Engine instances. The function receives a message whose
text is `vm_name:zone:action`, plus optional attributes. It then starts,
stops, deletes or creates the named instance through the Compute Engine
client library.

The model covers four parts of that logic:

- the message parser `parse_message`, with Python's `str.split(":")` and
  `str.strip()` written out;
- the controller `VMController.run`, which normalises and dispatches the
  action;
- the create operation `_create`, which fills in defaults, scopes the
  machine type, looks up the image and builds the instance record;
- the handler `start_stop_vm`, which composes the parser and the
  controller and turns every outcome into one log line.

The client library is abstracted as a trace of call records
(`Compute.Call`): `StartInstance`, `StopInstance`, `DeleteInstance`,
`GetFromFamily` and `InsertInstance`, each carrying its request fields. The
image that a family lookup returns is reduced to its `self_link`, given by an
arbitrary function `Compute.ImageCatalog` that the model passes in. The
project id comes from the ambient credentials and is passed in as a
parameter. Every operation is a pure function. It returns a `Result`, or the
calls it made together with its outcome.

Modules:

- `Wrappers`: `Option`, `Result` and `Outcome`.
- `Text`: `split` on one character, `strip()`, `lower()` and `startswith`,
  restricted to ASCII.
- `Message`: the command, `parse_message`, and the rule that missing
  attributes mean no parameters.
- `Compute`: the instance record and the call trace.
- `Controller`: `run`, `_start`, `_stop`, `_delete` and `_create`.
- `EntryPoint`: `start_stop_vm`.

Facts about the handler and the controller that the model keeps:

- The parser does not check the action: any text is accepted, and the
  controller rejects an unknown action with `ValueError`
  (`Message.ParseMessage`, `Controller.VMController.Run`).
- The handler logs an invalid action through the same `except ValueError`
  branch as a format error, with the error's own text
  (function/main.py:50-51; `EntryPoint.Handle`).
- The success log line names the action as parsed: stripped, but not
  lower-cased (`EntryPoint.SuccessLine`).

## Model

| member | source | states |
|---|---|---|
| Text.Split | function/main.py:18 | `split(":")` always yields one more part than there are colons |
| Text.SplitPartsFree | function/main.py:18 | no part produced by `split` contains the separator |
| Text.JoinSplit | function/main.py:18 | joining the parts with the separator gives back the original text |
| Text.SplitJoin | function/main.py:18 | splitting a join of separator-free parts gives back exactly those parts |
| Text.Strip | function/main.py:21 | `strip()` yields text with no whitespace at either end and never lengthens its input; over the whitespace set of `str.isspace` on ASCII |
| Text.StripSplits | function/main.py:21 | `strip()` removes only whitespace: the text is leading whitespace, the result, trailing whitespace |
| Text.StripPadded | function/main.py:21 | a stripped word padded with any whitespace on both sides strips back to the word |
| Text.StripIdempotent | function/main.py:21 | stripping twice is stripping once |
| Text.Lower | function/utils/controller.py:17 | `lower()` keeps the length, and each character becomes its ASCII lower-case form: upper-case letters fold, every other character is kept |
| Text.LowerIdempotent | function/utils/controller.py:17 | lower-casing twice is lower-casing once |
| Message.ParseMessage | function/main.py:13-22 | succeeds exactly when the text has two colons; otherwise fails with the format error; on success every field is colon-free and stripped |
| Message.ParseSegments | function/main.py:18-22 | three colon-free segments joined by colons parse to the stripped segments, in the order vm_name, zone, action |
| Message.ParseIsSegments | function/main.py:18-22 | every successful parse comes from three colon-free segments, and its fields are those segments stripped |
| Message.TwoPartsRejected | function/main.py:19-20 | a message with two parts is rejected with the format error |
| Message.FourOrMorePartsRejected | function/main.py:19-20 | a message with four or more parts is rejected with the format error, whatever follows the third colon |
| Message.EmptyZoneAccepted | function/main.py:18-22 | empty fields are not rejected: `vm::action` parses with an empty zone |
| Message.FormatParse | function/main.py:18-22 | a command whose fields are colon-free and stripped survives being joined with colons and parsed again |
| Message.ParseFormatParse | function/main.py:18-22 | re-parsing the colon-joined fields of a successful parse gives the same result |
| Message.MessageParams | function/main.py:38 | missing attributes give an empty parameter map; present ones are passed on unchanged |
| Controller.ParseAction | function/utils/controller.py:18-27 | dispatch recognises exactly the four action words and no other string |
| Controller.ParseActionName | function/utils/controller.py:18-25 | each action word selects its own operation |
| Controller.NormalizeAction | function/utils/controller.py:17 | the normalised action has no surrounding whitespace and no upper-case letter |
| Controller.NormalizeActionIdempotent | function/utils/controller.py:17 | normalising a normalised action changes nothing |
| Controller.NormalizeActionPadded | function/utils/controller.py:17 | an action word with any surrounding whitespace normalises to the word in lower case |
| Controller.NoActionIsInvalid | function/utils/controller.py:17 | a missing action is treated as the empty string, which matches no operation |
| Controller.ParamOr | function/utils/controller.py:45-47 | `params.get(key, default)`: the key's value when the key is present, the default otherwise |
| Controller.ResolveSettings | function/utils/controller.py:45-47 | each of `machine_type`, `image_family` and `network` takes its parameter's value when the key is present, and `e2-small`, `debian-11` or `global/networks/default` when it is absent |
| Controller.ResolveNoParams | function/utils/controller.py:45-47 | with no parameters the settings are `e2-small`, `debian-11` and `global/networks/default` |
| Controller.ResolveOverridesOwnKey | function/utils/controller.py:45-47 | adding one key overrides exactly that key's setting and leaves the other two unchanged |
| Controller.ResolveFromDefaults | function/utils/controller.py:45-47 | settings from any list of key assignments are the defaults overridden by exactly those keys |
| Controller.NormalizeMachineType | function/utils/controller.py:50-51 | the result starts with `zones/`; a scoped input is kept; a bare input becomes `zones/{zone}/machineTypes/{input}` |
| Controller.NormalizeMachineTypeIdempotent | function/utils/controller.py:50-51 | normalising a normalised machine type again, even for another zone, changes nothing |
| Controller.NormalizeBareMachineType | function/utils/controller.py:50-51 | a bare machine type is qualified once: the result names the zone and ends with the type as given |
| Controller.VMController.StartOp | function/utils/controller.py:31-33 | start makes exactly one start call carrying the project, zone and VM name, and no image lookup |
| Controller.VMController.StopOp | function/utils/controller.py:35-37 | stop makes exactly one stop call carrying the project, zone and VM name, and no image lookup |
| Controller.VMController.DeleteOp | function/utils/controller.py:39-41 | delete makes exactly one delete call carrying the project, zone and VM name, and no image lookup |
| Controller.VMController.CreateOp | function/utils/controller.py:43-85 | create makes exactly two calls: the family lookup in `debian-cloud`, then one insert. The inserted instance has the VM name, the scoped machine type and the looked-up image. It has one boot disk deleted with the instance, one interface on the chosen network with one "External NAT" access config, and the default service account with the two scopes |
| Controller.VMController.Run | function/utils/controller.py:15-27 | run fails exactly when the normalised action is not one of the four words. It then fails with "Invalid action: " and the normalised word, making no call. On success it makes exactly one call on the instances client, and it makes an image lookup only for create |
| Controller.VMController.RunDependsOnNormalizedAction | function/utils/controller.py:17-27 | two action strings that normalise alike dispatch alike |
| Controller.VMController.RunIgnoresCaseAndPadding | function/utils/controller.py:17-25 | any whitespace padding and any letter case of an action word dispatch like the word itself |
| Controller.VMController.RunNoParams | function/utils/controller.py:16 | missing parameters behave as an empty map |
| Controller.VMController.CreateWithMachineType | function/utils/controller.py:45-54 | supplying only `machine_type` changes only the machine type; image family and network keep their defaults |
| Controller.VMController.CreateScenario | function/utils/controller.py:43-85 | an action normalising to `create` with `machine_type=e2-medium` succeeds, looks up `debian-11` in `debian-cloud`, and inserts a zone-scoped `e2-medium` instance on the default network with the looked-up image |
| Controller.VMController.CreateWithDefaults | function/utils/controller.py:45-54 | create without parameters looks up `debian-11` and inserts a zone-scoped `e2-small` instance on the default network |
| EntryPoint.SuccessLine | function/main.py:48 | the success line starts with `Action '`, then holds the action, `' executed for VM '`, the VM name, `' in zone '` and the zone in that order, and ends with a quote |
| EntryPoint.Handle | function/main.py:32-51 | a malformed message logs the format error and makes no call. An error is logged exactly when no call was made. Success is logged with the parsed fields. The calls are those of `run` on the parsed command and attributes |
| EntryPoint.InvalidActionLogged | function/main.py:47-51 | an unknown action is logged as "Invalid action: " with the normalised word, and no call is made |
| EntryPoint.MissingAttributesAreEmpty | function/main.py:38 | a message without attributes behaves as one with an empty attribute map |
| EntryPoint.StartScenario | function/main.py:37-48 | `vm:zone:start` makes exactly one start request for that VM and zone and logs success |
| EntryPoint.HandleCreate | function/main.py:37-47 | `vm:zone:create` makes the calls of `_create` with the attributes as parameters |

## Left out

- Credential discovery and client construction (`function/utils/client.py`) are foreign calls. The handler constructs the clients after parsing and before dispatch, so it does so even for an invalid action; the model has no trace entry for that. The project id and the image catalog are parameters instead. The entry module imports `utils.clients`, which does not match the file name `client.py`; the model does not depend on that import.
- Base64 and UTF-8 decoding of the message data are library calls. The model starts from the decoded text. A missing `data` key raises `KeyError`, which reaches the catch-all "Unexpected error" branch (function/main.py:56-57). `base64.b64decode` drops characters outside the base64 alphabet and raises `binascii.Error` only on bad padding; bytes that are not valid UTF-8 raise `UnicodeDecodeError`. Both are `ValueError` subclasses, logged with their own message through the `ValueError` branch (function/main.py:50-51). Neither path is modelled.
- Remote failures are not modelled. Every call is accepted, so the `NotFound`, `PermissionDenied` and catch-all branches of the handler never fire. What the service does with a call, its long-running operations and its retries are outside the model. The only thing the model keeps of an image lookup is the `self_link` it returns.
- Text.Strip: removes only the ASCII characters that Python's `str.isspace()` accepts. Non-ASCII whitespace, which Python's `strip()` also removes, is kept.
- Text.Lower: folds only ASCII letters; Python's `lower()` also folds non-ASCII letters.
- Logger configuration, the `functions_framework` decorator, concurrency across invocations and redelivery are runtime plumbing. None of it is part of the decision logic.
- Parameter values are taken to be strings, as Pub/Sub attributes are. Non-string values passed to `run` directly are not modelled.

=== FILE: compute.dfy ===
/** The slice of the Compute Engine client library the controller touches:
    the instance record it builds and the remote calls it makes, recorded as
    a trace. What the remote service then does with a call is not modelled. */
module Compute {

  datatype AttachedDiskInitializeParams = AttachedDiskInitializeParams(sourceImage: string)

  datatype AttachedDisk = AttachedDisk(boot: bool, autoDelete: bool, initializeParams: AttachedDiskInitializeParams)

  datatype AccessConfig = AccessConfig(name: string)

  datatype NetworkInterface = NetworkInterface(network: string, accessConfigs: seq<AccessConfig>)

  datatype ServiceAccount = ServiceAccount(email: string, scopes: seq<string>)

  /** The `Instance` resource sent with an insert request. */
  datatype Instance = Instance(
    name: string,
    machineType: string,
    disks: seq<AttachedDisk>,
    networkInterfaces: seq<NetworkInterface>,
    serviceAccounts: seq<ServiceAccount>)

  /** One remote call, with the fields of its request. */
  datatype Call =
    | StartInstance(project: string, zone: string, instance: string)
    | StopInstance(project: string, zone: string, instance: string)
    | DeleteInstance(project: string, zone: string, instance: string)
    | GetFromFamily(project: string, family: string)
    | InsertInstance(project: string, zone: string, instanceResource: Instance)
  {
    /** A call on the instances client, as opposed to an image lookup. */
    predicate IsInstanceCall() {
      !GetFromFamily?
    }
  }

  /** The images client's family lookup, reduced to what the controller uses
      from its answer: the `self_link` of the image for `(project, family)`.
      Any function may stand here; the model assumes nothing about it. */
  type ImageCatalog = (string, string) -> string

  /** Number of calls on the instances client in a trace. */
  function InstanceCalls(calls: seq<Call>): nat {
    if calls == [] then 0
    else (if calls[0].IsInstanceCall() then 1 else 0) + InstanceCalls(calls[1..])
  }

  /** Number of image lookups in a trace. */
  function Lookups(calls: seq<Call>): nat {
    if calls == [] then 0
    else (if calls[0].GetFromFamily? then 1 else 0) + Lookups(calls[1..])
  }
}

=== FILE: controller.dfy ===
/** `VMController`: validates the action of a command and turns it into the
    remote calls of one of four operations on a Compute Engine instance. */
module Controller {
  import opened Wrappers
  import opened Text
  import opened Compute

  /** The four operations the controller dispatches to. */
  datatype Action = Start | Stop | Create | Delete

  /** The lower-case word that selects an action. */
  function ActionName(a: Action): string {
    match a
    case Start => "start"
    case Stop => "stop"
    case Create => "create"
    case Delete => "delete"
  }

  /** The dispatch table: an exact match against the four action words. */
  function ParseAction(s: string): (r: Option<Action>)
    ensures r.Some? ==> ActionName(r.value) == s
    ensures r.None? ==> forall a: Action :: ActionName(a) != s
  {
    if s == "start" then Some(Start)
    else if s == "stop" then Some(Stop)
    else if s == "create" then Some(Create)
    else if s == "delete" then Some(Delete)
    else None
  }

  /** Every action word is recognised as its own action. */
  lemma ParseActionName(a: Action)
    ensures ParseAction(ActionName(a)) == Some(a)
  {
  }

  /** `(action or "").strip().lower()`. */
  function NormalizeAction(action: Option<string>): (r: string)
    ensures IsTrimmed(r)
    ensures forall i :: 0 <= i < |r| ==> !IsUpperAscii(r[i])
  {
    var s := Strip(action.GetOr([]));
    LowerTrimmed(s);
    Lower(s)
  }

  /** A string without upper-case letters is its own lower-case form. */
  lemma LowerOfLower(s: string)
    requires forall i :: 0 <= i < |s| ==> !IsUpperAscii(s[i])
    ensures Lower(s) == s
  {
  }

  /** A stripped string without upper-case letters normalises to itself. */
  lemma NormalizeActionFixed(r: string)
    requires IsTrimmed(r)
    requires forall i :: 0 <= i < |r| ==> !IsUpperAscii(r[i])
    ensures NormalizeAction(Some(r)) == r
  {
    StripTrimmed(r);
    LowerOfLower(r);
  }

  /** Normalising an already normalised action changes nothing. */
  lemma NormalizeActionIdempotent(action: Option<string>)
    ensures NormalizeAction(Some(NormalizeAction(action))) == NormalizeAction(action)
  {
    NormalizeActionFixed(NormalizeAction(action));
  }

  /** Whitespace around the action and the case of its letters do not matter:
      a padded word normalises to the word in lower case. */
  lemma NormalizeActionPadded(left: string, w: string, right: string)
    requires AllSpace(left) && AllSpace(right) && IsTrimmed(w)
    ensures NormalizeAction(Some(left + w + right)) == Lower(w)
  {
    StripPadded(left, w, right);
  }

  /** The action words are already normalised. */
  lemma NormalizeActionName(a: Action)
    ensures NormalizeAction(Some(ActionName(a))) == ActionName(a)
  {
    NormalizeActionFixed(ActionName(a));
  }

  /** A missing action is the empty string, which matches no action. */
  lemma NoActionIsInvalid()
    ensures NormalizeAction(None) == []
    ensures ParseAction(NormalizeAction(None)) == None
  {
  }

  const DefaultMachineType: string := "e2-small"
  const DefaultImageFamily: string := "debian-11"
  const DefaultNetwork: string := "global/networks/default"

  /** The project that owns the public Debian images. */
  const ImageProject: string := "debian-cloud"
  const ZonesPrefix: string := "zones/"
  const ExternalNat: string := "External NAT"
  const DefaultServiceAccount: string := "default"
  const Scopes: seq<string> := [
    "https://www.googleapis.com/auth/devstorage.read_write",
    "https://www.googleapis.com/auth/logging.write"
  ]

  const MachineTypeKey: string := "machine_type"
  const ImageFamilyKey: string := "image_family"
  const NetworkKey: string := "network"

  /** `params.get(key, default)`. */
  function ParamOr(params: map<string, string>, key: string, default: string): (v: string)
    ensures key in params ==> v == params[key]
    ensures key !in params ==> v == default
  {
    if key in params then params[key] else default
  }

  /** The three settings `_create` reads from its parameters. */
  datatype Settings = Settings(machineType: string, imageFamily: string, network: string)

  const DefaultSettings: Settings := Settings(DefaultMachineType, DefaultImageFamily, DefaultNetwork)

  /** Each setting comes from its own key, or its default when the key is absent. */
  function ResolveSettings(params: map<string, string>): (s: Settings)
    ensures MachineTypeKey in params ==> s.machineType == params[MachineTypeKey]
    ensures MachineTypeKey !in params ==> s.machineType == DefaultMachineType
    ensures ImageFamilyKey in params ==> s.imageFamily == params[ImageFamilyKey]
    ensures ImageFamilyKey !in params ==> s.imageFamily == DefaultImageFamily
    ensures NetworkKey in params ==> s.network == params[NetworkKey]
    ensures NetworkKey !in params ==> s.network == DefaultNetwork
  {
    Settings(
      ParamOr(params, MachineTypeKey, DefaultMachineType),
      ParamOr(params, ImageFamilyKey, DefaultImageFamily),
      ParamOr(params, NetworkKey, DefaultNetwork))
  }

  /** `s` with the one setting named by `key` replaced by `value`; an
      unrecognised key changes nothing. */
  function Override(s: Settings, key: string, value: string): Settings {
    if key == MachineTypeKey then s.(machineType := value)
    else if key == ImageFamilyKey then s.(imageFamily := value)
    else if key == NetworkKey then s.(network := value)
    else s
  }

  /** With no parameters, all three defaults are used. */
  lemma ResolveNoParams()
    ensures ResolveSettings(map[]) == Settings("e2-small", "debian-11", "global/networks/default")
  {
  }

  /** Supplying one more key overrides exactly the setting of that key and
      leaves the other two as they were. */
  lemma ResolveOverridesOwnKey(params: map<string, string>, key: string, value: string)
    ensures ResolveSettings(params[key := value]) == Override(ResolveSettings(params), key, value)
  {
  }

  /** Settings resolved from any subset of the three keys are the defaults
      overridden by exactly the keys supplied, in any order. */
  lemma {:induction false} ResolveFromDefaults(keys: seq<string>, values: seq<string>)
    requires |keys| == |values|
    ensures ResolveSettings(Assign(map[], keys, values)) == OverrideAll(DefaultSettings, keys, values)
    decreases |keys|
  {
    if keys != [] {
      var n := |keys| - 1;
      ResolveFromDefaults(keys[..n], values[..n]);
      ResolveOverridesOwnKey(Assign(map[], keys[..n], values[..n]), keys[n], values[n]);
    }
  }

  /** The map built by assigning `keys[i] := values[i]` in order. */
  function Assign(m: map<string, string>, keys: seq<string>, values: seq<string>): map<string, string>
    requires |keys| == |values|
    decreases |keys|
  {
    if keys == [] then m
    else
      var n := |keys| - 1;
      Assign(m, keys[..n], values[..n])[keys[n] := values[n]]
  }

  /** `s` overridden by each `(keys[i], values[i])` in order. */
  function OverrideAll(s: Settings, keys: seq<string>, values: seq<string>): Settings
    requires |keys| == |values|
    decreases |keys|
  {
    if keys == [] then s
    else
      var n := |keys| - 1;
      Override(OverrideAll(s, keys[..n], values[..n]), keys[n], values[n])
  }

  /** Scopes a bare machine type to the zone; a path that already starts
      with `zones/` is kept as given. */
  function NormalizeMachineType(machineType: string, zone: string): (r: string)
    ensures StartsWith(r, ZonesPrefix)
    ensures StartsWith(machineType, ZonesPrefix) ==> r == machineType
    ensures !StartsWith(machineType, ZonesPrefix) ==> r == ZonesPrefix + zone + "/machineTypes/" + machineType
  {
    if StartsWith(machineType, ZonesPrefix) then machineType
    else
      var r := ZonesPrefix + zone + "/machineTypes/" + machineType;
      assert r[..|ZonesPrefix|] == ZonesPrefix;
      r
  }

  /** Normalising twice is normalising once, whatever the zones. */
  lemma NormalizeMachineTypeIdempotent(machineType: string, zone: string, zone': string)
    ensures NormalizeMachineType(NormalizeMachineType(machineType, zone), zone') == NormalizeMachineType(machineType, zone)
  {
  }

  /** A bare machine type is qualified exactly once: the result names the
      zone and ends with the type as given. */
  lemma NormalizeBareMachineType(machineType: string, zone: string)
    requires !StartsWith(machineType, ZonesPrefix)
    ensures var r := NormalizeMachineType(machineType, zone);
            |r| == |ZonesPrefix| + |zone| + |"/machineTypes/"| + |machineType|
            && r[|r| - |machineType|..] == machineType
            && r[|ZonesPrefix|..|ZonesPrefix| + |zone|] == zone
  {
    var r := NormalizeMachineType(machineType, zone);
    assert r == ZonesPrefix + zone + ("/machineTypes/" + machineType);
  }

  /** The fixed shape of every instance `_create` inserts: one boot disk that
      is deleted with the instance, one network interface with one access
      configuration named "External NAT", and the default service account
      with exactly the storage read/write and logging write scopes. */
  predicate HasFixedShape(inst: Instance) {
    && |inst.disks| == 1
    && inst.disks[0].boot
    && inst.disks[0].autoDelete
    && |inst.networkInterfaces| == 1
    && inst.networkInterfaces[0].accessConfigs == [AccessConfig(ExternalNat)]
    && inst.serviceAccounts == [ServiceAccount(DefaultServiceAccount, Scopes)]
  }

  /** The controller, bound to the project of the ambient credentials and to
      the image catalog. The instances client is the trace it emits. */
  datatype VMController = VMController(project: string, images: ImageCatalog) {

    function StartOp(vmName: string, zone: string): (calls: seq<Call>)
      ensures |calls| == 1 && InstanceCalls(calls) == 1 && Lookups(calls) == 0
      ensures calls[0] == StartInstance(project, zone, vmName)
    {
      [StartInstance(project, zone, vmName)]
    }

    function StopOp(vmName: string, zone: string): (calls: seq<Call>)
      ensures |calls| == 1 && InstanceCalls(calls) == 1 && Lookups(calls) == 0
      ensures calls[0] == StopInstance(project, zone, vmName)
    {
      [StopInstance(project, zone, vmName)]
    }

    function DeleteOp(vmName: string, zone: string): (calls: seq<Call>)
      ensures |calls| == 1 && InstanceCalls(calls) == 1 && Lookups(calls) == 0
      ensures calls[0] == DeleteInstance(project, zone, vmName)
    {
      [DeleteInstance(project, zone, vmName)]
    }

    /** `_create`: look the image family up in the Debian project, then
        insert one instance built from the resolved settings. */
    function CreateOp(vmName: string, zone: string, params: map<string, string>): (calls: seq<Call>)
      ensures |calls| == 2 && InstanceCalls(calls) == 1 && Lookups(calls) == 1
      ensures calls[0] == GetFromFamily(ImageProject, ResolveSettings(params).imageFamily)
      ensures calls[1].InsertInstance?
      ensures calls[1].project == project && calls[1].zone == zone
      ensures var inst := calls[1].instanceResource;
              && inst.name == vmName
              && inst.machineType == NormalizeMachineType(ResolveSettings(params).machineType, zone)
              && HasFixedShape(inst)
              && inst.disks[0].initializeParams.sourceImage == images(ImageProject, ResolveSettings(params).imageFamily)
              && inst.networkInterfaces[0].network == ResolveSettings(params).network
    {
      var settings := ResolveSettings(params);
      var machineType := NormalizeMachineType(settings.machineType, zone);
      var image := images(ImageProject, settings.imageFamily);
      var config := Instance(
        vmName,
        machineType,
        [AttachedDisk(true, true, AttachedDiskInitializeParams(image))],
        [NetworkInterface(settings.network, [AccessConfig(ExternalNat)])],
        [ServiceAccount(DefaultServiceAccount, Scopes)]);
      var calls := [GetFromFamily(ImageProject, settings.imageFamily), InsertInstance(project, zone, config)];
      assert calls[1..] == [calls[1]] && calls[1..][1..] == [];
      assert InstanceCalls(calls[1..]) == 1 && Lookups(calls[1..]) == 0;
      calls
    }

    /** `run`: normalise the action, then either emit the calls of exactly one
        operation or fail with "Invalid action: " and emit nothing. */
    function Run(action: Option<string>, vmName: string, zone: string, params: Option<map<string, string>>): (e: Execution)
      ensures e.outcome.Fail? <==> NormalizeAction(action) !in {"start", "stop", "create", "delete"}
      ensures e.outcome.Fail? ==> e.calls == [] && e.outcome.error == "Invalid action: " + NormalizeAction(action)
      ensures e.outcome.Pass? ==> InstanceCalls(e.calls) == 1
      ensures Lookups(e.calls) > 0 ==> NormalizeAction(action) == "create"
      ensures NormalizeAction(action) == "start" ==> e.calls == [StartInstance(project, zone, vmName)]
      ensures NormalizeAction(action) == "stop" ==> e.calls == [StopInstance(project, zone, vmName)]
      ensures NormalizeAction(action) == "delete" ==> e.calls == [DeleteInstance(project, zone, vmName)]
      ensures NormalizeAction(action) == "create" ==> e.calls == CreateOp(vmName, zone, params.GetOr(map[]))
    {
      var p := params.GetOr(map[]);
      var a := NormalizeAction(action);
      match ParseAction(a)
      case Some(Start) => Execution(StartOp(vmName, zone), Pass)
      case Some(Stop) => Execution(StopOp(vmName, zone), Pass)
      case Some(Create) => Execution(CreateOp(vmName, zone, p), Pass)
      case Some(Delete) => Execution(DeleteOp(vmName, zone), Pass)
      case None => Execution([], Fail("Invalid action: " + a))
    }

    /** Two action strings that normalise alike dispatch alike. */
    lemma RunDependsOnNormalizedAction(a: string, b: string, vmName: string, zone: string, params: Option<map<string, string>>)
      requires NormalizeAction(Some(a)) == NormalizeAction(Some(b))
      ensures Run(Some(a), vmName, zone, params) == Run(Some(b), vmName, zone, params)
    {
    }

    /** Any padding and any letter case of an action word dispatch like the
        word itself: `" START "` behaves as `"start"`. */
    lemma RunIgnoresCaseAndPadding(left: string, w: string, right: string, act: Action, vmName: string, zone: string,
                                   params: Option<map<string, string>>)
      requires AllSpace(left) && AllSpace(right) && IsTrimmed(w)
      requires Lower(w) == ActionName(act)
      ensures Run(Some(left + w + right), vmName, zone, params) == Run(Some(ActionName(act)), vmName, zone, params)
      ensures Run(Some(left + w + right), vmName, zone, params).outcome == Pass
    {
      NormalizeActionPadded(left, w, right);
      NormalizeActionName(act);
    }

    /** Missing parameters are an empty map. */
    lemma RunNoParams(action: Option<string>, vmName: string, zone: string)
      ensures Run(action, vmName, zone, None) == Run(action, vmName, zone, Some(map[]))
    {
    }

    /** A supplied machine type alone changes only the machine type; image
        family and network keep their defaults. */
    lemma CreateWithMachineType(vmName: string, zone: string, machineType: string)
      ensures var calls := CreateOp(vmName, zone, map[MachineTypeKey := machineType]);
              && calls[0] == GetFromFamily(ImageProject, DefaultImageFamily)
              && calls[1].instanceResource.machineType == NormalizeMachineType(machineType, zone)
              && calls[1].instanceResource.networkInterfaces[0].network == DefaultNetwork
              && calls[1].instanceResource.disks[0].initializeParams.sourceImage == images(ImageProject, DefaultImageFamily)
    {
      ResolveOverridesOwnKey(map[], MachineTypeKey, machineType);
    }

    /** A create action with `machine_type` set to `e2-medium` looks up
        `debian-11` in `debian-cloud` and inserts an `e2-medium` instance,
        scoped to the zone, on the default network. */
    lemma CreateScenario(action: string, vmName: string, zone: string)
      requires NormalizeAction(Some(action)) == "create"
      ensures var e := Run(Some(action), vmName, zone, Some(map["machine_type" := "e2-medium"]));
              && e.outcome == Pass
              && |e.calls| == 2
              && e.calls[0] == GetFromFamily("debian-cloud", "debian-11")
              && e.calls[1].InsertInstance?
              && e.calls[1].project == project && e.calls[1].zone == zone
              && e.calls[1].instanceResource.name == vmName
              && e.calls[1].instanceResource.machineType == "zones/" + zone + "/machineTypes/e2-medium"
              && e.calls[1].instanceResource.networkInterfaces[0].network == "global/networks/default"
              && e.calls[1].instanceResource.disks[0].initializeParams.sourceImage == images("debian-cloud", "debian-11")
    {
      CreateWithMachineType(vmName, zone, "e2-medium");
      assert !StartsWith("e2-medium", ZonesPrefix) by {
        assert "e2-medium"[0] != ZonesPrefix[0];
      }
    }

    /** Creating without parameters inserts an `e2-small` Debian 11 instance
        on the default network, its machine type scoped to the zone. */
    lemma CreateWithDefaults(vmName: string, zone: string)
      ensures var calls := CreateOp(vmName, zone, map[]);
              && calls[0] == GetFromFamily("debian-cloud", "debian-11")
              && calls[1].instanceResource.machineType == "zones/" + zone + "/machineTypes/e2-small"
              && calls[1].instanceResource.networkInterfaces[0].network == "global/networks/default"
    {
      assert DefaultMachineType[..|ZonesPrefix|][0] != ZonesPrefix[0];
    }
  }

  /** What one `run` did: the remote calls it made, and whether it raised. */
  datatype Execution = Execution(calls: seq<Call>, outcome: Outcome<string>)
}

=== FILE: entry.dfy ===
/** `start_stop_vm`, the Pub/Sub handler: parse the message, run the
    controller, and turn the outcome into one log line. No error escapes. */
module EntryPoint {
  import opened Wrappers
  import opened Compute
  import opened Message
  import opened Controller

  /** The Pub/Sub message of a cloud event: its `data`, already decoded from
      base64 and UTF-8, and its optional `attributes`. */
  datatype PubSubMessage = PubSubMessage(data: string, attributes: Option<map<string, string>>)

  datatype LogLine = Info(text: string) | Error(text: string)

  /** What one invocation did: the remote calls made and the line logged. */
  datatype Handled = Handled(calls: seq<Call>, log: LogLine)

  const SuccessPrefix: string := "Action '"
  const VmInfix: string := "' executed for VM '"
  const ZoneInfix: string := "' in zone '"

  /** The success line, naming the action as parsed (stripped, case kept). */
  function SuccessLine(c: Command): (line: string)
    ensures |line| == |SuccessPrefix| + |c.action| + |VmInfix| + |c.vmName| + |ZoneInfix| + |c.zone| + 1
    ensures line[..|SuccessPrefix|] == SuccessPrefix
    ensures line[|SuccessPrefix|..|SuccessPrefix| + |c.action|] == c.action
    ensures line[|SuccessPrefix| + |c.action|..|SuccessPrefix| + |c.action| + |VmInfix|] == VmInfix
    ensures var vmAt := |SuccessPrefix| + |c.action| + |VmInfix|;
            line[vmAt..vmAt + |c.vmName|] == c.vmName
    ensures var zoneAt := |SuccessPrefix| + |c.action| + |VmInfix| + |c.vmName|;
            line[zoneAt..zoneAt + |ZoneInfix|] == ZoneInfix
    ensures line[|line| - 1 - |c.zone|..|line| - 1] == c.zone
    ensures line[|line| - 1] == '\''
  {
    var line := SuccessPrefix + c.action + VmInfix + c.vmName + ZoneInfix + c.zone + "'";
    assert line == SuccessPrefix + (c.action + (VmInfix + c.vmName + ZoneInfix + c.zone + "'"));
    assert line == (SuccessPrefix + c.action + VmInfix) + (c.vmName + (ZoneInfix + c.zone + "'"));
    assert line == (SuccessPrefix + c.action + VmInfix + c.vmName + ZoneInfix) + c.zone + "'";
    line
  }

  /** The handler, for the project of the ambient credentials and its image
      catalog. A format error and an invalid action are both `ValueError`s,
      logged with their message. */
  function Handle(project: string, images: ImageCatalog, msg: PubSubMessage): (h: Handled)
    ensures ParseMessage(msg.data).Failure? ==> h == Handled([], Error(FormatError))
    ensures h.log.Error? <==> h.calls == []
    ensures h.log.Info? ==> ParseMessage(msg.data).Success? && h.log.text == SuccessLine(ParseMessage(msg.data).value)
    ensures ParseMessage(msg.data).Success? ==>
              var cmd := ParseMessage(msg.data).value;
              h.calls == VMController(project, images).Run(Some(cmd.action), cmd.vmName, cmd.zone,
                                                           Some(MessageParams(msg.attributes))).calls
  {
    match ParseMessage(msg.data)
    case Failure(e) => Handled([], Error(e))
    case Success(cmd) =>
      var params := MessageParams(msg.attributes);
      var e := VMController(project, images).Run(Some(cmd.action), cmd.vmName, cmd.zone, Some(params));
      match e.outcome
      case Fail(err) => Handled([], Error(err))
      case Pass =>
        assert e.calls != [];
        Handled(e.calls, Info(SuccessLine(cmd)))
  }

  /** A message whose action is not one of the four words is logged as an
      invalid action naming the normalised word, and nothing is called. */
  lemma InvalidActionLogged(project: string, images: ImageCatalog, msg: PubSubMessage)
    requires ParseMessage(msg.data).Success?
    requires ParseAction(NormalizeAction(Some(ParseMessage(msg.data).value.action))).None?
    ensures Handle(project, images, msg)
            == Handled([], Error("Invalid action: " + NormalizeAction(Some(ParseMessage(msg.data).value.action))))
  {
  }

  /** A message without attributes behaves as one with an empty attribute map. */
  lemma MissingAttributesAreEmpty(project: string, images: ImageCatalog, data: string)
    ensures Handle(project, images, PubSubMessage(data, None)) == Handle(project, images, PubSubMessage(data, Some(map[])))
  {
  }

  /** `vm:zone:start` makes exactly one start request for that VM and zone,
      with no image lookup, and logs success. */
  lemma StartScenario(project: string, images: ImageCatalog, vm: string, zone: string)
    requires IsField(vm) && IsField(zone)
    ensures Handle(project, images, PubSubMessage(Format(Command(vm, zone, "start")), None))
            == Handled([StartInstance(project, zone, vm)], Info(SuccessLine(Command(vm, zone, "start"))))
  {
    var cmd := Command(vm, zone, "start");
    assert IsField(ActionName(Start));
    FormatParse(cmd);
    NormalizeActionName(Start);
  }

  /** A well-formed `vm:zone:create` message makes the calls of `_create`
      with the message's attributes as parameters. */
  lemma HandleCreate(project: string, images: ImageCatalog, vm: string, zone: string,
                     attributes: Option<map<string, string>>)
    requires IsField(vm) && IsField(zone)
    ensures Handle(project, images, PubSubMessage(Format(Command(vm, zone, "create")), attributes)).calls
            == VMController(project, images).CreateOp(vm, zone, MessageParams(attributes))
  {
    assert IsField(ActionName(Create));
    FormatParse(Command(vm, zone, "create"));
    NormalizeActionName(Create);
  }
}

=== FILE: message.dfy ===
/** The message decoder of the handler's entry module: `parse_message`, which
    turns the decoded text `vm_name:zone:action` into a command, and the rule
    that a message without attributes carries no parameters. */
module Message {
  import opened Wrappers
  import opened Text

  /** The three fields of a decoded message, in message order. */
  datatype Command = Command(vmName: string, zone: string, action: string)

  /** The text of the `ValueError` raised on a malformed message. */
  const FormatError: string := "Invalid message format. Expected: vm_name:zone:action"

  const Colon: char := ':'

  /** The message text that carries `c`: the fields joined by colons. */
  function Format(c: Command): string {
    c.vmName + [Colon] + c.zone + [Colon] + c.action
  }

  /** A command field as the parser can produce it: no colon, no surrounding whitespace. */
  predicate IsField(s: string) {
    Colon !in s && IsTrimmed(s)
  }

  /** `parse_message`: split on every colon, demand exactly three parts,
      strip each. The contents of the fields are not checked. */
  function ParseMessage(msg: string): (r: Result<Command, string>)
    ensures r.Success? <==> Count(msg, Colon) == 2
    ensures r.Failure? ==> r.error == FormatError
    ensures r.Success? ==> IsField(r.value.vmName) && IsField(r.value.zone) && IsField(r.value.action)
  {
    var parts := Split(msg, Colon);
    if |parts| != 3 then
      Failure(FormatError)
    else
      SplitPartsFree(msg, Colon);
      assert Colon !in parts[0] && Colon !in parts[1] && Colon !in parts[2];
      FieldOfPart(parts[0]);
      FieldOfPart(parts[1]);
      FieldOfPart(parts[2]);
      Success(Command(Strip(parts[0]), Strip(parts[1]), Strip(parts[2])))
  }

  lemma FieldOfPart(p: string)
    requires Colon !in p
    ensures IsField(Strip(p))
  {
    if Colon in Strip(p) {
      StripChars(p, Colon);
    }
  }

  /** A message made of three colon-free segments parses to those segments,
      each stripped, in the order vm_name, zone, action. */
  lemma ParseSegments(a: string, b: string, c: string)
    requires Colon !in a && Colon !in b && Colon !in c
    ensures ParseMessage(a + [Colon] + b + [Colon] + c) == Success(Command(Strip(a), Strip(b), Strip(c)))
  {
    var parts := [a, b, c];
    JoinThree(a, b, c);
    SplitJoin(parts, Colon);
  }

  lemma JoinThree(a: string, b: string, c: string)
    ensures Join([a, b, c], Colon) == a + [Colon] + b + [Colon] + c
  {
    var parts := [a, b, c];
    assert parts[1..] == [b, c];
    assert parts[1..][1..] == [c];
    assert Join([c], Colon) == c;
    assert Join([b, c], Colon) == b + [Colon] + c;
    assert a + [Colon] + (b + [Colon] + c) == a + [Colon] + b + [Colon] + c;
  }

  /** Every successful parse comes from three colon-free segments, and its
      fields are those segments stripped: the converse of `ParseSegments`. */
  lemma ParseIsSegments(msg: string) returns (a: string, b: string, c: string)
    requires ParseMessage(msg).Success?
    ensures Colon !in a && Colon !in b && Colon !in c
    ensures msg == a + [Colon] + b + [Colon] + c
    ensures ParseMessage(msg).value == Command(Strip(a), Strip(b), Strip(c))
  {
    assert |Split(msg, Colon)| == 3;
    a, b, c := SplitThree(msg);
  }

  /** A three-part split names the three segments of the message. */
  lemma SplitThree(msg: string) returns (a: string, b: string, c: string)
    requires |Split(msg, Colon)| == 3
    ensures Split(msg, Colon) == [a, b, c]
    ensures Colon !in a && Colon !in b && Colon !in c
    ensures msg == a + [Colon] + b + [Colon] + c
  {
    var parts := Split(msg, Colon);
    SplitPartsFree(msg, Colon);
    JoinSplit(msg, Colon);
    a, b, c := parts[0], parts[1], parts[2];
    assert parts == [a, b, c];
    JoinThree(a, b, c);
  }

  /** Formatting a command whose fields are parser output and parsing the
      text again gives back the command. */
  lemma FormatParse(c: Command)
    requires IsField(c.vmName) && IsField(c.zone) && IsField(c.action)
    ensures ParseMessage(Format(c)) == Success(c)
  {
    ParseSegments(c.vmName, c.zone, c.action);
    StripTrimmed(c.vmName);
    StripTrimmed(c.zone);
    StripTrimmed(c.action);
  }

  /** Re-parsing the colon-joined fields of a successful parse gives the same
      result: trimming is idempotent and no field can contain a colon. */
  lemma ParseFormatParse(msg: string)
    requires ParseMessage(msg).Success?
    ensures ParseMessage(Format(ParseMessage(msg).value)) == ParseMessage(msg)
  {
    FormatParse(ParseMessage(msg).value);
  }

  /** Empty fields are accepted: `vm::action` parses with an empty zone. */
  lemma EmptyZoneAccepted(a: string, c: string)
    requires Colon !in a && Colon !in c
    ensures ParseMessage(a + [Colon, Colon] + c) == Success(Command(Strip(a), [], Strip(c)))
  {
    ParseSegments(a, [], c);
    assert a + [Colon] + [] + [Colon] + c == a + [Colon, Colon] + c;
  }

  /** A message with a single colon (two parts) is rejected. */
  lemma TwoPartsRejected(a: string, b: string)
    requires Colon !in a && Colon !in b
    ensures ParseMessage(a + [Colon] + b) == Failure(FormatError)
  {
    CountAbsent(a, Colon);
    CountAbsent(b, Colon);
    CountAppend(a + [Colon], b, Colon);
    CountAppend(a, [Colon], Colon);
  }

  /** A message with three colon-free segments followed by a colon and
      anything at all (four or more parts) is rejected. */
  lemma FourOrMorePartsRejected(a: string, b: string, c: string, rest: string)
    requires Colon !in a && Colon !in b && Colon !in c
    ensures ParseMessage(a + [Colon] + b + [Colon] + c + [Colon] + rest) == Failure(FormatError)
  {
    var prefix := a + [Colon] + b + [Colon] + c;
    ThreeSegmentsCount(a, b, c);
    CountAppend(prefix + [Colon], rest, Colon);
    CountAppend(prefix, [Colon], Colon);
  }

  /** The colon count of a three-segment message is two. */
  lemma ThreeSegmentsCount(a: string, b: string, c: string)
    requires Colon !in a && Colon !in b && Colon !in c
    ensures Count(a + [Colon] + b + [Colon] + c, Colon) == 2
  {
    ParseSegments(a, b, c);
  }

  /** `data["message"].get("attributes", {})`: absent attributes mean no parameters. */
  function MessageParams(attributes: Option<map<string, string>>): (params: map<string, string>)
    ensures attributes.None? ==> params == map[]
    ensures attributes.Some? ==> params == attributes.value
  {
    attributes.GetOr(map[])
  }
}

=== FILE: text.dfy ===
/** The Python `str` operations the handler relies on: `split` on one
    separator character, `strip()`, `lower()` and `startswith`, restricted
    to the ASCII range. */
module Text {

  /** ASCII characters for which Python's `str.isspace()` holds: tab, line
      feed, vertical tab, form feed, carriage return, the four information
      separators 0x1C..0x1F, and space. `str.strip()` removes exactly these. */
  predicate IsSpace(c: char) {
    (9 <= c as int <= 13) || (28 <= c as int <= 32)
  }

  predicate AllSpace(s: string) {
    forall i :: 0 <= i < |s| ==> IsSpace(s[i])
  }

  /** Neither starts nor ends with whitespace: what `strip()` returns. */
  predicate IsTrimmed(s: string) {
    s == [] || (!IsSpace(s[0]) && !IsSpace(s[|s| - 1]))
  }

  /** `str.lstrip()`: drops the longest all-whitespace prefix. */
  function TrimStart(s: string): (r: string)
    ensures |r| <= |s|
    ensures r == [] || !IsSpace(r[0])
  {
    if |s| > 0 && IsSpace(s[0]) then TrimStart(s[1..]) else s
  }

  /** What `TrimStart` removes is all whitespace: `s == ws + TrimStart(s)`. */
  lemma {:induction false} TrimStartSplits(s: string) returns (ws: string)
    ensures s == ws + TrimStart(s)
    ensures AllSpace(ws)
    decreases |s|
  {
    if |s| > 0 && IsSpace(s[0]) {
      var rest := s[1..];
      var ws' := TrimStartSplits(rest);
      var r := TrimStart(rest);
      ws := [s[0]] + ws';
      assert TrimStart(s) == r;
      calc {
        s;
        [s[0]] + rest;
        [s[0]] + (ws' + r);
        ws + r;
      }
      assert AllSpace(ws) by {
        forall i | 0 <= i < |ws|
          ensures IsSpace(ws[i])
        {
          if i > 0 {
            assert ws[i] == ws'[i - 1];
          }
        }
      }
    } else {
      ws := [];
    }
  }

  /** `str.rstrip()`: drops the longest all-whitespace suffix. */
  function TrimEnd(s: string): (r: string)
    ensures |r| <= |s|
    ensures r == [] || !IsSpace(r[|r| - 1])
  {
    if |s| > 0 && IsSpace(s[|s| - 1]) then TrimEnd(s[..|s| - 1]) else s
  }

  /** What `TrimEnd` removes is all whitespace: `s == TrimEnd(s) + ws`. */
  lemma {:induction false} TrimEndSplits(s: string) returns (ws: string)
    ensures s == TrimEnd(s) + ws
    ensures AllSpace(ws)
    decreases |s|
  {
    if |s| > 0 && IsSpace(s[|s| - 1]) {
      var init, last := s[..|s| - 1], s[|s| - 1];
      var ws' := TrimEndSplits(init);
      ws := ws' + [last];
      assert s == init + [last];
      assert AllSpace(ws) by {
        forall i | 0 <= i < |ws|
          ensures IsSpace(ws[i])
        {
          if i < |ws'| {
            assert ws[i] == ws'[i];
          }
        }
      }
    } else {
      ws := [];
      assert s + [] == s;
    }
  }

  /** `str.strip()`: removes whitespace at both ends. */
  function Strip(s: string): (r: string)
    ensures IsTrimmed(r)
    ensures |r| <= |s|
  {
    var t := TrimStart(s);
    assert IsTrimmed(TrimEnd(t)) by {
      var ws := TrimEndSplits(t);
      if TrimEnd(t) != [] {
        assert TrimEnd(t)[0] == t[0];
      }
    }
    TrimEnd(t)
  }

  /** `Strip(s)` is what remains of `s` once the whitespace before it and
      the whitespace after it are removed: `s == left + Strip(s) + right`. */
  lemma StripSplits(s: string) returns (left: string, right: string)
    ensures s == left + Strip(s) + right
    ensures AllSpace(left) && AllSpace(right)
  {
    var t := TrimStart(s);
    left := TrimStartSplits(s);
    right := TrimEndSplits(t);
    var r := TrimEnd(t);
    assert Strip(s) == r;
    calc {
      s;
      left + t;
      left + (r + right);
      left + r + right;
    }
  }

  /** Every character of `Strip(s)` occurs in `s`. */
  lemma StripChars(s: string, c: char)
    requires c in Strip(s)
    ensures c in s
  {
    var left, right := StripSplits(s);
    var r := Strip(s);
    var k :| 0 <= k < |r| && r[k] == c;
    assert s[|left| + k] == c;
  }

  /** Stripping a string that is already stripped changes nothing. */
  lemma StripTrimmed(s: string)
    requires IsTrimmed(s)
    ensures Strip(s) == s
  {
  }

  /** `strip()` is idempotent. */
  lemma StripIdempotent(s: string)
    ensures Strip(Strip(s)) == Strip(s)
  {
    StripTrimmed(Strip(s));
  }

  lemma {:induction false} TrimStartPadded(ws: string, w: string)
    requires AllSpace(ws)
    requires w == [] || !IsSpace(w[0])
    ensures TrimStart(ws + w) == w
    decreases |ws|
  {
    if ws != [] {
      assert (ws + w)[1..] == ws[1..] + w;
      TrimStartPadded(ws[1..], w);
    } else {
      assert ws + w == w;
    }
  }

  lemma {:induction false} TrimEndPadded(w: string, ws: string)
    requires AllSpace(ws)
    requires w == [] || !IsSpace(w[|w| - 1])
    ensures TrimEnd(w + ws) == w
    decreases |ws|
  {
    if ws != [] {
      assert (w + ws)[..|w + ws| - 1] == w + ws[..|ws| - 1];
      TrimEndPadded(w, ws[..|ws| - 1]);
    } else {
      assert w + ws == w;
    }
  }

  /** Surrounding whitespace of any length is removed, and only that: a
      stripped word padded on both sides strips back to itself. */
  lemma StripPadded(left: string, w: string, right: string)
    requires AllSpace(left) && AllSpace(right)
    requires IsTrimmed(w)
    ensures Strip(left + w + right) == w
  {
    if w == [] {
      assert left + w + right == left + right;
      assert AllSpace(left + right);
      TrimStartPadded(left + right, []);
      assert left + right + [] == left + right;
    } else {
      assert left + w + right == left + (w + right);
      TrimStartPadded(left, w + right);
      TrimEndPadded(w, right);
    }
  }

  /** ASCII case folding of one character, as Python's `str.lower()` does in ASCII. */
  function LowerChar(c: char): char {
    if 'A' <= c <= 'Z' then (c as int + 32) as char else c
  }

  predicate IsUpperAscii(c: char) {
    'A' <= c <= 'Z'
  }

  /** `str.lower()` on ASCII: folds every upper-case letter, keeps the rest. */
  function Lower(s: string): (r: string)
    ensures |r| == |s|
    ensures forall i :: 0 <= i < |s| ==> r[i] == LowerChar(s[i])
  {
    if s == [] then [] else [LowerChar(s[0])] + Lower(s[1..])
  }

  /** Lower-casing twice is lower-casing once. */
  lemma LowerIdempotent(s: string)
    ensures Lower(Lower(s)) == Lower(s)
  {
  }

  /** Lower-casing neither creates nor removes whitespace. */
  lemma LowerKeepsSpace(s: string)
    ensures forall i :: 0 <= i < |s| ==> (IsSpace(Lower(s)[i]) <==> IsSpace(s[i]))
  {
  }

  lemma LowerTrimmed(s: string)
    requires IsTrimmed(s)
    ensures IsTrimmed(Lower(s))
  {
    LowerKeepsSpace(s);
  }

  /** Python's `s.startswith(p)`. */
  predicate StartsWith(s: string, p: string) {
    |p| <= |s| && s[..|p|] == p
  }

  /** Number of occurrences of `c` in `s`. */
  function Count(s: string, c: char): nat {
    if s == [] then 0 else (if s[0] == c then 1 else 0) + Count(s[1..], c)
  }

  lemma {:induction false} CountAppend(a: string, b: string, c: char)
    ensures Count(a + b, c) == Count(a, c) + Count(b, c)
    decreases |a|
  {
    if a == [] {
      assert a + b == b;
    } else {
      assert (a + b)[1..] == a[1..] + b;
      CountAppend(a[1..], b, c);
    }
  }

  lemma {:induction false} CountAbsent(s: string, c: char)
    ensures c !in s <==> Count(s, c) == 0
    decreases |s|
  {
    if s != [] {
      CountAbsent(s[1..], c);
      assert s == [s[0]] + s[1..];
    }
  }

  /** `sep.join(parts)`. */
  function Join(parts: seq<string>, sep: char): string
    decreases |parts|
  {
    if |parts| == 0 then []
    else if |parts| == 1 then parts[0]
    else parts[0] + [sep] + Join(parts[1..], sep)
  }

  /** `s.split(sep)` for a one-character separator: the maximal runs between
      separators, always at least one (`"".split(":") == [""]`). */
  function Split(s: string, sep: char): (parts: seq<string>)
    ensures |parts| == Count(s, sep) + 1
    decreases |s|
  {
    if s == [] then [[]]
    else
      var rest := Split(s[1..], sep);
      if s[0] == sep then [[]] + rest
      else [[s[0]] + rest[0]] + rest[1..]
  }

  /** No part produced by `split` contains the separator. */
  lemma {:induction false} SplitPartsFree(s: string, sep: char)
    ensures forall i :: 0 <= i < |Split(s, sep)| ==> sep !in Split(s, sep)[i]
    decreases |s|
  {
    if s != [] {
      SplitPartsFree(s[1..], sep);
    }
  }

  /** Joining the parts with the separator gives back the original string. */
  lemma {:induction false} JoinSplit(s: string, sep: char)
    ensures Join(Split(s, sep), sep) == s
    decreases |s|
  {
    if s != [] {
      var rest := Split(s[1..], sep);
      JoinSplit(s[1..], sep);
      if s[0] == sep {
        assert Split(s, sep) == [[]] + rest;
        assert ([[]] + rest)[1..] == rest;
        assert s == [] + [sep] + s[1..];
      } else {
        var parts := Split(s, sep);
        assert parts == [[s[0]] + rest[0]] + rest[1..];
        if |rest| == 1 {
          assert s == [s[0]] + rest[0];
        } else {
          assert parts[1..] == rest[1..];
          assert Join(rest, sep) == rest[0] + [sep] + Join(rest[1..], sep);
          assert s == ([s[0]] + rest[0]) + [sep] + Join(rest[1..], sep);
        }
      }
    }
  }

  /** A separator-free string does not split. */
  lemma {:induction false} SplitFree(s: string, sep: char)
    requires sep !in s
    ensures Split(s, sep) == [s]
    decreases |s|
  {
    if s != [] {
      assert s[1..] == s[|s| - |s[1..]|..];
      assert sep !in s[1..];
      SplitFree(s[1..], sep);
      assert [s[0]] + s[1..] == s;
    }
  }

  /** Splitting `p + sep + t`, where `p` is separator-free, yields `p` followed by the parts of `t`. */
  lemma {:induction false} SplitCons(p: string, sep: char, t: string)
    requires sep !in p
    ensures Split(p + [sep] + t, sep) == [p] + Split(t, sep)
    decreases |p|
  {
    var s := p + [sep] + t;
    if p == [] {
      assert s[0] == sep;
      assert s[1..] == t;
    } else {
      assert s[0] == p[0];
      assert s[1..] == p[1..] + [sep] + t;
      assert sep !in p[1..] by {
        assert forall k :: 0 <= k < |p[1..]| ==> p[1..][k] == p[k + 1];
      }
      SplitCons(p[1..], sep, t);
      assert [p[0]] + p[1..] == p;
    }
  }

  /** Splitting a join of separator-free parts gives back the parts. */
  lemma {:induction false} SplitJoin(parts: seq<string>, sep: char)
    requires |parts| >= 1
    requires forall i :: 0 <= i < |parts| ==> sep !in parts[i]
    ensures Split(Join(parts, sep), sep) == parts
    decreases |parts|
  {
    if |parts| == 1 {
      SplitFree(parts[0], sep);
    } else {
      SplitJoin(parts[1..], sep);
      SplitCons(parts[0], sep, Join(parts[1..], sep));
      assert [parts[0]] + parts[1..] == parts;
    }
  }
}

=== FILE: wrappers.dfy ===
/** Failure-carrying datatypes used to model Python's exceptions as values. */
module Wrappers {

  /** A value that may be absent, standing for Python's `None`. */
  datatype Option<+T> = None | Some(value: T) {

    /** The wrapped value, or `default` when absent. */
    function GetOr(default: T): T {
      match this
      case Some(v) => v
      case None => default
    }
  }

  /** The result of an operation that either returns a value or raises an error. */
  datatype Result<+R, +E> = Success(value: R) | Failure(error: E)

  /** The result of an operation that returns nothing of interest or raises an error. */
  datatype Outcome<+E> = Pass | Fail(error: E)
}
